=== FILE: README.md ===
# SRPN calculator core, in Dafny

A functional model of `srpn.py`, a saturating reverse-Polish calculator that
reproduces a legacy program bug for bug. The terminal loop and the
floating-point results of `/`, `%` and `^` are left out (see "Left out").
The legacy program keeps its state in globals (srpn.py:7-18). The value
stack, the operator buffer, the comment flag and the random-request counter
become one immutable `Session` record. The random list is filled once at
start-up from the constant seed and never changes afterwards, so it becomes
the constant `Rng.Window()`, and the seed becomes the constant `Rng.Seed`.
Every operation is a pure function from a session to a `Step`, which holds:

- the new session;
- the output lines it printed (`Line`; `Render.Text` gives their exact characters);
- an `Outcome`, `Continue` or `Fatal`. `Fatal` stands for the process exiting with status 1.

Modules, in dependency order:

- `Wrappers`: `Option`.
- `Int32`: saturation into the signed 32-bit range, and the unsigned 32-bit mask.
- `Rng`: the legacy generator sequence built from seed 1, the 23-entry window
  kept after the discard, and the cyclic read over indices 1..22.
- `Lexer`: the character classes that the program tests with regular
  expressions, the lookahead predicates, the operator ranks, and the literal
  parser. The parser handles decimal, octal, the two-character fallback and `r`.
- `Machine`: the session and the bounded, saturating push. It also has the
  binary-operator guards, the operator buffer with its newest-first drain, and
  the postfix commands `=` and `d`.
- `Evaluator`: the per-item evaluator (`evaluate_expression`), the recursive
  token scanner (`process_non_comments`), the per-token dispatch
  (`process_input`), and a run over a sequence of tokens.
- `Render`: output text, and the fact that a printed value reads back as itself.
- `Scenarios`: worked consequences. They cover a printed value typed back in,
  an over-long literal, `-` after a number, two buffered subtractions, and how
  `*` and the final drain turn the state after `2+2^2` into the legacy result 12.

The results of `/`, `%` and `^` are computed in floating point by the legacy
program. The model takes them from a `Kernel` function parameter. Their
guards (underflow, divide by zero, negative power, the fatal `%`) are modelled
exactly. `+`, `-` and `*` are exact and then clamped. Clamping the exact
integer gives the same answer as clamping the rounded float, because both
bounds are representable as floats.

A literal longer than 43 characters is not truncated: only the window handed
to the current item is cut (srpn.py:91-92), and the scan then resumes from the
original token after the consumed characters (srpn.py:84). So a 50-digit
literal that does not start with `0` is split: its first 43 digits push the
saturated maximum (`Scenarios.LongLiteralIsSplit`), and the remaining 7
characters are read as a literal of their own, under the octal rules if they
start with `0`. A long literal that does start with `0` is read by the octal
rules from the start.

## Model

| member | source | states |
|---|---|---|
| Int32.Saturate | srpn.py:266-271 | the result is always in [-2147483648, 2147483647], is the input itself when that is in range, and is the in-range value nearest the input |
| Int32.SaturateIdempotent | srpn.py:266-271 | clamping an already clamped value changes nothing |
| Int32.SaturateMonotone | srpn.py:266-271 | clamping never reorders two values |
| Int32.Mask32 | srpn.py:252-253 | the mask is an unsigned 32-bit number congruent to its input modulo 2^32 |
| Rng.Lehmer | srpn.py:237-240 | one recurrence step yields a value in [0, 2^31 - 1) |
| Rng.Gen | srpn.py:235-246 | every generator entry is non-negative, including the unreduced sums from entry 34 on |
| Rng.Generated | srpn.py:235-246 | the list built by appending one entry at a time from the seed has exactly the requested length and starts with the seed |
| Rng.GeneratedIsGen | srpn.py:235-246 | every entry of the appended list equals the recursive reference entry `Gen(i)` |
| Rng.Window | srpn.py:245-248 | the list left after deleting the first 343 of 366 entries has 23 entries |
| Rng.WindowIsGen | srpn.py:245-248 | window entry i is generator entry 343 + i |
| Rng.PopulateWindow | srpn.py:230-248 | the loop that builds the 366-entry list and discards 343 entries yields exactly the window, that is, generator entries 343..365 |
| Rng.RandIndex | srpn.py:218-223 | the index read by the n-th request lies in 1..22, so never 0, and differs from n by a multiple of 22 |
| Rng.RandomValue | srpn.py:216-225 | every random value lies in [0, 2^31 - 1] |
| Rng.RandIndexFirstCycle | srpn.py:221-223 | the first 22 requests read window indices 1..22 in order |
| Rng.RandomPeriodic | srpn.py:216-225 | requests any whole number of 22-request cycles apart read the same index and return the same value |
| Lexer.LookaheadIsNumber | srpn.py:317-319 | a number starts only at a number character or `-`, and always at a number character; right after a number it starts only at a number character; otherwise a leading `-` starts a number exactly when a digit or `r` follows |
| Lexer.MinusBeforeDigit | srpn.py:317-319 | a `-` before a digit starts a negative literal exactly when the previous item was not a number; otherwise it is an expression operator |
| Lexer.LookaheadIsExpressionFirstChar | srpn.py:326-332 | an expression starts exactly at a digit, at `r` or at one of `+ - * / % ^` |
| Lexer.ValidNonExpressionIsCommand | srpn.py:310-312 | a valid character that does not start an expression is exactly `=` or `d` |
| Lexer.OpOf | srpn.py:305-307 | a character denotes an infix operator exactly when it is one of `+ - * / % ^`, and that operator's symbol is the character |
| Lexer.OpOfSymbol | srpn.py:21-33 | every operator's symbol is an expression operator and maps back to the same operator |
| Lexer.HasPrecedence | srpn.py:281-282 | under the rank table `+` = `-` < `*` < `/` < `%` < `^`, an operator has precedence over exactly the operators ranked at or below it: `+`/`-` over `+`/`-`; `*` over those and `*`; `/` over all but `%` and `^`; `%` over all but `^`; `^` over everything |
| Lexer.RanksDistinguish | srpn.py:25-33 | only `+` and `-` share a rank; every other pair of operators is strictly ordered |
| Lexer.LeadingDigits | srpn.py:119 | the count covers only digits and stops at the first non-digit |
| Lexer.SignedDigitRun | srpn.py:119-120 | `-?[0-9]+` matches exactly when the text starts with a digit or with `-` and a digit; the match is a signed decimal and is maximal |
| Lexer.ParseLiteral | srpn.py:121-135 | the literal consumes all its characters; it has no value exactly when it looks octal, is not valid octal and is not two characters long (counting the sign); a valid octal is read in base 8; the two-character fallback and every literal that does not look octal are read in base 10; the sign of the value follows the text |
| Lexer.NextNumber | srpn.py:115-135 | `r` gives a random request; a failed match is reported only when no signed digit run starts the text; otherwise the maximal run is parsed and the next character is not a digit |
| Lexer.OctalLiteral | srpn.py:123-126 | `017` reads as octal 15 |
| Lexer.TwoCharacterFallback | srpn.py:128-129 | `09` reads as decimal 9 |
| Lexer.InvalidOctalHasNoValue | srpn.py:130-131 | `018` has no value but consumes three characters |
| Lexer.SignCountsTowardsFallback | srpn.py:128-131 | `-09` has no value, because the sign counts towards the two-character length |
| Machine.Push | srpn.py:257-262 | a stack of 23 or more is left unchanged with `Stack overflow.`; otherwise the clamped value is appended, or nothing for a literal with no value; a well-formed stack stays at most 23 entries of 32-bit values |
| Machine.Arith | srpn.py:187-211 | `+`, `-` and `*` give the exact sum, difference and product of left and right operand; `/`, `%` and `^` give the kernel's result |
| Machine.ApplyBinary | srpn.py:164-189 | the guards fire in order and leave the stack unchanged: underflow, divide by zero, negative power; the process ends exactly when `%` has a non-zero top and a zero second entry; otherwise two entries are popped, the top as right operand, and the clamped result is pushed |
| Machine.ApplyAll | srpn.py:143-144 | applying a list of operators keeps the stack well formed and removes at most one entry per operator |
| Machine.Drain | srpn.py:139-144 | draining always leaves the buffer empty, prints nothing for an empty buffer, and keeps the stack well formed |
| Machine.DrainNewestFirst | srpn.py:139-144 | a drain first applies the most recently queued operator, then drains the older ones; there is no re-sorting by rank |
| Machine.Values | srpn.py:154-155 | one line per stack entry, bottom to top |
| Machine.Listing | srpn.py:152-155 | `d`'s listing is the single line -2147483648 for an empty stack, and otherwise one line per entry, bottom to top |
| Machine.Dump | srpn.py:150-155 | `d` empties the buffer first, then lists the stack bottom to top, printing -2147483648 for an empty stack |
| Machine.PrintTop | srpn.py:157-161 | `=` prints exactly one line, `Stack empty.` exactly when the stack is empty and the top entry otherwise, and changes nothing |
| Machine.EvaluatePostfix | srpn.py:148-182 | `=` is exactly the print-top command and `d` exactly the drain-and-list command; a postfix command keeps the flags and counter; only `d` touches the buffer; `=` keeps the stack; an operator character is applied at once with `ApplyBinary` (a branch the scanner never reaches, since it hands operators to the buffer) |
| Machine.QueueOperator | srpn.py:102-109 | the buffer is drained first exactly when the new operator ranks below the newest queued one; the operator then becomes the newest entry; ranks in the buffer stay non-decreasing |
| Evaluator.Visible | srpn.py:91-92 | the current item sees a non-empty prefix of the token: the whole token up to 43 characters, and exactly its first 43 characters beyond that |
| Evaluator.PushLiteral | srpn.py:95-96 | a literal pushes its clamped value, pushes nothing when it has no value, or leaves the stack alone with `Stack overflow.` on a stack of 23; nothing else in the session changes |
| Evaluator.PushRandom | srpn.py:116-117 | a random request advances the counter even when the push overflows, and pushes the value for the new count |
| Evaluator.EvaluateExpression | srpn.py:88-110 | an item consumes between 1 and 43 characters; a number sets the number flag and leaves the buffer alone; `-r` ends the process; an operator consumes one character, clears the flag and is queued |
| Evaluator.Scan | srpn.py:66-84 | a token that does not end the process always leaves the buffer empty; the comment flag never changes and the random counter never decreases (what it does with the characters is pinned down by `ScanEndDrains`, `PrintedValueToken`, `LongLiteralScan`, `EqualsTokenPrintsTop` and `DumpTokenIsDump`) |
| Evaluator.ScanEndDrains | srpn.py:67-70 | at the end of a token the buffered operators are drained, and with an empty buffer nothing happens |
| Evaluator.ProcessInput | srpn.py:51-59 | `#` toggles comment mode; a non-ASCII token ends the process even inside a comment; other tokens inside a comment are ignored; an ASCII token other than `#` outside a comment is scanned from its first character, as not following a number; an idle session (well-formed stack, empty buffer) stays idle |
| Evaluator.Run | srpn.py:43-44 | over any sequence of tokens, an idle session stays idle |
| Evaluator.RunSingle | srpn.py:43-44 | a single token is processed exactly by `ProcessInput`; with `RunAppend` this fixes the result of every token sequence |
| Evaluator.RunFromStart | srpn.py:7-18 | the process starts with an empty stack and buffer, comment mode off and no random requests, so after any tokens the stack is well formed and, unless the process ended, the session is idle |
| Evaluator.RunAppend | srpn.py:43-44 | running two token sequences back to back is running the first, then the second from where the first left off, unless the first ended the process |
| Evaluator.CommentSuppresses | srpn.py:58-59 | inside a comment, any ASCII tokens other than `#` leave the session unchanged and print nothing |
| Evaluator.CommentBracket | srpn.py:52-59 | a `#`-bracketed run of ASCII tokens has no effect at all |
| Render.IntToString | srpn.py:153-161 | a printed integer is non-empty, starts with `-` exactly when negative, and is all digits otherwise |
| Render.Text | srpn.py:153-172 | every line is non-empty, every diagnostic ends with a full stop, and the unrecognised-character message is 37 characters with the character at index 34 |
| Render.ParseOctalText | srpn.py:123-126 | any value written as `0` (after an optional `-`) followed by its octal digits is a valid octal literal that reads back as that value |
| Render.ParsePrinted | srpn.py:119-135 | the text of a printed value is a signed decimal literal that parses back to that same value |
| Render.ValueTextsAreNumbers | srpn.py:153-172 | a printed value starts with a digit or `-`, and no diagnostic does |
| Render.TextInjective | srpn.py:153-172 | distinct output lines have distinct text |
| Scenarios.PrintedValueIsShort | srpn.py:91-92 | a printed 32-bit value has at most 11 characters, so it fits in the 43-character window |
| Scenarios.DigitRunStopsAtNonDigit | srpn.py:119-120 | a signed digit string followed by a non-digit matches exactly up to that character |
| Scenarios.PrintedValueLexes | srpn.py:115-135 | a printed value followed by a non-digit starts a number, and the item's window lexes as exactly that value's literal |
| Scenarios.PrintedValueReadsBack | srpn.py:88-97 | a printed value typed back in is consumed as one literal, pushes the same value, and `=` prints it again |
| Scenarios.LongDigitRunOverflows | srpn.py:119-135 | 43 digits not starting with 0 read as one literal with a value beyond 32 bits |
| Scenarios.LongLiteralIsSplit | srpn.py:84-97 | an over-long literal is not dropped: its first 43 characters push the saturated maximum, and only those 43 are consumed |
| Scenarios.MinusAfterNumberQueues | srpn.py:102-109 | after a number, `-` queued behind `+` or `-` drains nothing and joins the buffer |
| Scenarios.DrainTwoMinuses | srpn.py:139-144 | buffered subtractions group to the right: x y z with `- -` queued gives x - (y - z) |
| Scenarios.DrainPowerThenAdd | srpn.py:139-144 | for a kernel giving 2 ^ 2 = 4, draining `+ ^` over 2 2 2 applies `^` before `+`, leaving 6 |
| Scenarios.EqualsTokenPrintsTop | srpn.py:66-84 | a token `=` prints the top of the stack (or `Stack empty.`) and changes nothing, then drains any operators still buffered |
| Scenarios.DumpTokenIsDump | srpn.py:66-84 | a token `d` has exactly the effect and output of the `d` command |
| Scenarios.PrintedIsAscii | srpn.py:54-59 | a printed value is an ASCII token other than `#`, so it reaches the scanner |
| Scenarios.PrintedValueToken | srpn.py:66-100 | a printed 32-bit value typed as a token on its own, with an empty buffer, pushes exactly itself and prints nothing |
| Scenarios.TokenRoundTrip | srpn.py:43-44 | from an idle session outside a comment, the tokens "v" and "=" print exactly the line `v` for every 32-bit value v |
| Scenarios.LongLiteralScan | srpn.py:66-97 | a literal longer than 43 digits not starting with `0` pushes the saturated maximum, then the scan resumes on the rest of the token after the 43rd character, as following a number |
| Scenarios.LegacyPrecedence | srpn.py:102-109 | for a kernel giving 2 ^ 2 = 4, from the state after `2+2^2` (stack 2 2 2, buffer `+ ^`): `*` forces the drain and is then queued alone, and after the last `2` the final drain gives 12, not the textbook 10 |

## Left out

- The terminal loop (srpn.py:37-47) is I/O. That covers reading lines, splitting on whitespace, printing, and exiting on end of input or interrupt. Tokens are a `seq<string>` given to `Evaluator.Run`. Output is a `seq<Line>`, and `Render.Text` gives each line's characters.
- Machine.ApplyBinary: `/`, `%` and `^` take their results from the `Kernel` parameter, not from floating-point arithmetic (srpn.py:201-208). The legacy stack holds floats, so a fractional quotient survives until printed. The model keeps whole numbers, and its `== 0` and `< 0` guards are then read on integers. A negative base under a fractional exponent (for example after `1 2 /`) makes the legacy `^` yield a complex number, on which `saturate_input` (srpn.py:264-270) raises a `TypeError` that ends the process; a `Kernel` returning an integer cannot express that exit.
- The `OverflowError` fallback to the maximum value (srpn.py:180-181) is part of the kernel's result. It is not modelled separately.
- The `else` branch of `evaluate_operator`, which gives 0 (srpn.py:209-210), cannot be reached from six operators.
- The second unrecognised-character branch of `evaluate_expression` (srpn.py:99-100) is modelled, but the scanner never reaches it. The line before it (srpn.py:72) already excludes that case.
- The `-r` input has no specified result. The lookahead accepts it (srpn.py:318-319), but the literal pattern does not match, so taking its span raises an exception (srpn.py:119-120). The model treats it as `Fatal`.
- The negative correction in the generator (srpn.py:239-240) is modelled in `Rng.Lehmer`, but it never fires.
- Rng.PopulateWindow: builds the list in one loop instead of the source's three loops (srpn.py:237-246). The entries are the same.
- The rank that the token table gives to numbers (srpn.py:26) is never compared, so it has no counterpart.
- Evaluator.Scan: recurses once per item (srpn.py:84) with no depth limit. In the legacy program a token of about 1000 items exceeds Python's default recursion limit. The resulting `RecursionError` is not caught (srpn.py:46), so the process dies partway through the token. The model has no recursion limit and keeps going, because the limit belongs to the interpreter, not to the program.
- The regular-expression engine (srpn.py:1, 286-312) is replaced by character predicates.
- Process exit (srpn.py:336-337) is replaced by the `Fatal` outcome.

=== FILE: evaluator.dfy ===
/**
 * The recursive token scanner and the per-token dispatch. A token is
 * consumed left to right: numbers are pushed, infix operators are queued,
 * `=` and `d` run at once, anything else is reported; at the end of the
 * token the operator buffer is drained.
 */
module Evaluator {
  import opened Wrappers
  import opened Int32
  import opened Rng
  import opened Lexer
  import opened Machine

  /** The item that starts a token only sees this many of its characters. */
  const Cutoff: nat := 43

  /** An item's effect, how many characters it consumed, and whether it was a number. */
  datatype Consumed = Consumed(step: Step, length: nat, prevNum: bool)

  /** The part of the remaining token handed to the current item. */
  function Visible(input: string): (e: string)
    ensures |e| <= Cutoff && |e| <= |input|
    ensures e == input[..|e|]
    ensures |input| > 0 ==> |e| > 0
    ensures |input| <= Cutoff ==> e == input
    ensures |input| > Cutoff ==> |e| == Cutoff
  {
    if |input| > Cutoff then input[..Cutoff] else input
  }

  /** Pushes a parsed literal (or reports an overflow); the session is otherwise untouched. */
  function PushLiteral(s: Session, v: Option<int>): (r: Step)
    ensures r.outcome == Continue
    ensures r.session == s.(stack := r.session.stack)
    ensures |s.stack| >= Capacity ==> r.session.stack == s.stack && r.out == [StackOverflow]
    ensures |s.stack| < Capacity ==> r.out == []
    ensures |s.stack| < Capacity && v.None? ==> r.session.stack == s.stack
    ensures |s.stack| < Capacity && v.Some? ==> r.session.stack == s.stack + [Saturate(v.value)]
    ensures StackOk(s.stack) ==> StackOk(r.session.stack)
  {
    var p := Push(s.stack, v);
    Step(s.(stack := p.stack), p.out, Continue)
  }

  /** Serves a random request: the counter advances even if the push overflows. */
  function PushRandom(s: Session): (r: Step)
    ensures r.outcome == Continue
    ensures r.session == s.(stack := r.session.stack, randCount := s.randCount + 1)
    ensures |s.stack| < Capacity ==> r.session.stack == s.stack + [RandomValue(s.randCount + 1)] && r.out == []
    ensures |s.stack| >= Capacity ==> r.session.stack == s.stack && r.out == [StackOverflow]
    ensures StackOk(s.stack) ==> StackOk(r.session.stack)
  {
    var count := s.randCount + 1;
    var p := Push(s.stack, Some(RandomValue(count)));
    Step(s.(stack := p.stack, randCount := count), p.out, Continue)
  }

  /**
   * Evaluates the number or infix operator at the start of `input`. A `-`
   * followed by `r` looks like a number but does not match the literal
   * pattern, which ends the process.
   */
  function EvaluateExpression(s: Session, input: string, prevNum: bool, k: Kernel): (r: Consumed)
    requires |input| > 0
    ensures 1 <= r.length <= |input| && r.length <= Cutoff
    ensures r.step.session.inComment == s.inComment
    ensures r.step.session.randCount >= s.randCount
    ensures StackOk(s.stack) ==> StackOk(r.step.session.stack)
    ensures RankSorted(s.ops) ==> RankSorted(r.step.session.ops)
    ensures LookaheadIsNumber(input, prevNum) ==> r.prevNum && r.step.session.ops == s.ops
    ensures LookaheadIsNumber(input, prevNum) && input[0] == RandomMarker ==>
              r.length == 1 && r.step == PushRandom(s)
    ensures LookaheadIsNumber(input, prevNum) && input[0] != RandomMarker ==>
              (r.step.outcome == Fatal <==> input[0] == '-' && input[1] == RandomMarker)
    ensures LookaheadIsNumber(input, prevNum) && NextNumber(Visible(input)).Literal? ==>
              r.length == NextNumber(Visible(input)).length
              && r.step == PushLiteral(s, NextNumber(Visible(input)).value)
    ensures !LookaheadIsNumber(input, prevNum) && IsExpressionOperator(input[0]) ==>
              r.length == 1 && !r.prevNum && r.step == QueueOperator(s, OpOf(input[0]).value, k)
  {
    var e := Visible(input);
    if LookaheadIsNumber(e, prevNum) then
      match NextNumber(e)
      case RandomRequest => Consumed(PushRandom(s), 1, true)
      case Literal(v, n) => Consumed(PushLiteral(s, v), n, true)
      case NoMatch => Consumed(Step(s, [], Fatal), 1, true)
    else if !LookaheadIsExpression(e) then
      Consumed(Step(s, [Unrecognised(e[0])], Continue), 1, prevNum)
    else if LookaheadIsExpressionOperator(e) then
      Consumed(QueueOperator(s, OpOf(e[0]).value, k), 1, false)
    else
      Consumed(Step(s, [], Continue), 1, prevNum)
  }

  /**
   * Scans the rest of a token. `prevNum` says whether the previous item was
   * a number; `=`, `d` and unrecognised characters leave it as it was.
   */
  function Scan(s: Session, input: string, prevNum: bool, k: Kernel): (r: Step)
    ensures r.outcome == Continue ==> r.session.ops == []
    ensures r.session.inComment == s.inComment
    ensures r.session.randCount >= s.randCount
    ensures StackOk(s.stack) ==> StackOk(r.session.stack)
    decreases |input|
  {
    if |input| == 0 then
      if |s.ops| > 0 then Drain(s, k) else Step(s, [], Continue)
    else
      var c :=
        if LookaheadIsExpression(input) then EvaluateExpression(s, input, prevNum, k)
        else if !IsValidInput(input[0]) then Consumed(Step(s, [Unrecognised(input[0])], Continue), 1, prevNum)
        else Consumed(EvaluatePostfix(s, input[0], k), 1, prevNum);
      if c.step.outcome == Fatal then c.step
      else Join(c.step, Scan(c.step.session, input[c.length..], c.prevNum, k))
  }

  predicate IsAscii(t: string) {
    forall i :: 0 <= i < |t| ==> (t[i] as int) < 128
  }

  /**
   * Dispatches one whitespace-separated token: `#` toggles comment mode, a
   * non-ASCII token ends the process even inside a comment, tokens inside a
   * comment are dropped, and anything else is scanned.
   */
  function ProcessInput(s: Session, token: string, k: Kernel): (r: Step)
    ensures token == "#" ==> r == Step(s.(inComment := !s.inComment), [], Continue)
    ensures token != "#" && !IsAscii(token) ==> r == Step(s, [], Fatal)
    ensures token != "#" && IsAscii(token) && s.inComment ==> r == Step(s, [], Continue)
    ensures token != "#" && IsAscii(token) && !s.inComment ==> r == Scan(s, token, false, k)
    ensures token != "#" && IsAscii(token) && !s.inComment ==> r.session.inComment == s.inComment
    ensures Idle(s) && r.outcome == Continue ==> Idle(r.session)
    ensures StackOk(s.stack) ==> StackOk(r.session.stack)
  {
    if token == "#" then Step(s.(inComment := !s.inComment), [], Continue)
    else if !IsAscii(token) then Step(s, [], Fatal)
    else if s.inComment then Step(s, [], Continue)
    else Scan(s, token, false, k)
  }

  /** Feeds tokens in order until they run out or one ends the process. */
  function Run(s: Session, tokens: seq<string>, k: Kernel): (r: Step)
    ensures Idle(s) && r.outcome == Continue ==> Idle(r.session)
    ensures StackOk(s.stack) ==> StackOk(r.session.stack)
    decreases |tokens|
  {
    if |tokens| == 0 then Step(s, [], Continue)
    else
      var a := ProcessInput(s, tokens[0], k);
      if a.outcome == Fatal then a
      else Join(a, Run(a.session, tokens[1..], k))
  }

  /** A token on its own is processed exactly as `ProcessInput` does it. */
  lemma RunSingle(s: Session, t: string, k: Kernel)
    ensures Run(s, [t], k) == ProcessInput(s, t, k)
  {
    assert [t][1..] == [];
    assert ProcessInput(s, t, k).out + [] == ProcessInput(s, t, k).out;
  }

  /** At the end of a token, operators still buffered are drained; an empty buffer leaves everything as it was. */
  lemma ScanEndDrains(s: Session, prevNum: bool, k: Kernel)
    ensures Scan(s, "", prevNum, k) == if s.ops == [] then Step(s, [], Continue) else Drain(s, k)
  {
  }

  /** Running `a + b` is running `a`, then (unless it ended the process) `b` from where `a` left off. */
  lemma {:induction false} RunAppend(s: Session, a: seq<string>, b: seq<string>, k: Kernel)
    ensures var ra := Run(s, a, k);
            Run(s, a + b, k) == if ra.outcome == Fatal then ra else Join(ra, Run(ra.session, b, k))
    decreases |a|
  {
    if |a| == 0 {
      assert a + b == b;
    } else {
      var p := ProcessInput(s, a[0], k);
      assert (a + b)[0] == a[0] && (a + b)[1..] == a[1..] + b;
      if p.outcome == Continue {
        var ra := Run(p.session, a[1..], k);
        calc {
          Run(s, a + b, k);
          Join(p, Run(p.session, a[1..] + b, k));
          { RunAppend(p.session, a[1..], b, k); }
          Join(p, if ra.outcome == Fatal then ra else Join(ra, Run(ra.session, b, k)));
        }
        if ra.outcome == Continue {
          var rb := Run(ra.session, b, k);
          assert p.out + (ra.out + rb.out) == (p.out + ra.out) + rb.out;
        }
      }
    }
  }

  /** A process starts idle, so every property above of idle sessions holds from the first token on. */
  lemma RunFromStart(tokens: seq<string>, k: Kernel)
    ensures Idle(Initial) && !Initial.inComment && Initial.randCount == 0
    ensures var r := Run(Initial, tokens, k);
            && StackOk(r.session.stack)
            && (r.outcome == Continue ==> Idle(r.session))
  {
  }

  predicate Silent(tokens: seq<string>) {
    forall i :: 0 <= i < |tokens| ==> tokens[i] != "#" && IsAscii(tokens[i])
  }

  /** Inside a comment, ASCII tokens other than `#` change nothing and print nothing. */
  lemma {:induction false} CommentSuppresses(s: Session, tokens: seq<string>, k: Kernel)
    requires s.inComment && Silent(tokens)
    ensures Run(s, tokens, k) == Step(s, [], Continue)
    decreases |tokens|
  {
    if |tokens| > 0 {
      CommentSuppresses(s, tokens[1..], k);
    }
  }

  /** A commented-out run of ASCII tokens, `# ... #`, has no effect at all. */
  lemma CommentBracket(s: Session, tokens: seq<string>, k: Kernel)
    requires !s.inComment && Silent(tokens)
    ensures Run(s, ["#"] + tokens + ["#"], k) == Step(s, [], Continue)
  {
    var commented := s.(inComment := true);
    assert Run(s, ["#"], k) == Step(commented, [], Continue);
    RunAppend(s, ["#"], tokens, k);
    CommentSuppresses(commented, tokens, k);
    RunAppend(s, ["#"] + tokens, ["#"], k);
    assert Run(commented, ["#"], k) == Step(s, [], Continue);
  }
}

=== FILE: int32.dfy ===
/**
 * Saturating signed 32-bit arithmetic: every value that reaches the stack is
 * clamped into [MinValue, MaxValue]; the random generator masks to 32 bits.
 */
module Int32 {

  const MinValue: int := -2147483648
  const MaxValue: int := 2147483647

  /** 2^32: the modulus of the unsigned 32-bit mask. */
  const Two32: int := 0x1_0000_0000

  predicate InRange(x: int) {
    MinValue <= x <= MaxValue
  }

  function Dist(a: int, b: int): nat {
    if a <= b then b - a else a - b
  }

  /** Clamps `x` into the signed 32-bit range (saturation, not wrap-around). */
  function Saturate(x: int): (r: int)
    ensures InRange(r)
    ensures InRange(x) ==> r == x
    ensures forall y :: InRange(y) ==> Dist(r, x) <= Dist(y, x)
  {
    if x > MaxValue then MaxValue
    else if x < MinValue then MinValue
    else x
  }

  /** Saturation is idempotent. */
  lemma SaturateIdempotent(x: int)
    ensures Saturate(Saturate(x)) == Saturate(x)
  {
  }

  /** Saturation is monotone: it never reorders two values. */
  lemma SaturateMonotone(x: int, y: int)
    requires x <= y
    ensures Saturate(x) <= Saturate(y)
  {
  }

  /** The low 32 bits of `x`, read as an unsigned number (`x & 0xffffffff`). */
  function Mask32(x: int): (r: int)
    ensures 0 <= r < Two32
    ensures (x - r) % Two32 == 0
  {
    x % Two32
  }
}

=== FILE: lexer.dfy ===
/**
 * Character classification and numeric-literal recognition. The legacy
 * program does this with regular expressions; here each pattern is an
 * explicit predicate over characters.
 */
module Lexer {
  import opened Wrappers

  /** The literal that requests a random number. */
  const RandomMarker: char := 'r'

  predicate IsDigit(c: char) {
    '0' <= c <= '9'
  }

  predicate IsOctalDigit(c: char) {
    '0' <= c <= '7'
  }

  /** The class `+ - * / % ^`: operators that may appear inside an infix expression. */
  predicate IsExpressionOperator(c: char) {
    c in "+-*/%^"
  }

  /** Expression operators plus the two postfix-only commands `=` and `d`. */
  predicate IsOperator(c: char) {
    IsExpressionOperator(c) || c == '=' || c == 'd'
  }

  /** A one-character string that is a signed number or the random marker. */
  predicate IsNumber(c: char) {
    IsDigit(c) || c == RandomMarker
  }

  predicate IsValidInput(c: char) {
    IsOperator(c) || IsNumber(c)
  }

  /**
   * Does a number start here? A `-` followed by a number character starts a
   * negative literal only when the preceding item was not a number.
   */
  function LookaheadIsNumber(s: string, prevNum: bool): (r: bool)
    ensures r ==> |s| > 0 && (IsNumber(s[0]) || s[0] == '-')
    ensures |s| > 0 && IsNumber(s[0]) ==> r
    ensures prevNum ==> (r <==> |s| > 0 && IsNumber(s[0]))
    ensures !prevNum && |s| > 0 && s[0] == '-' ==> (r <==> |s| > 1 && IsNumber(s[1]))
  {
    (|s| > 0 && IsNumber(s[0])) || (|s| > 1 && s[0] == '-' && IsNumber(s[1]) && !prevNum)
  }

  predicate LookaheadIsExpressionOperator(s: string)
    requires |s| > 0
  {
    IsExpressionOperator(s[0])
  }

  /** Does an expression (a number or an infix operator) start here? Always asked with no preceding number. */
  predicate LookaheadIsExpression(s: string)
    requires |s| > 0
  {
    LookaheadIsNumber(s, false) || LookaheadIsExpressionOperator(s)
  }

  /** An expression starts exactly at a digit, the random marker or an expression operator. */
  lemma LookaheadIsExpressionFirstChar(s: string)
    requires |s| > 0
    ensures LookaheadIsExpression(s) <==> IsNumber(s[0]) || IsExpressionOperator(s[0])
  {
  }

  /** A `-` before a digit is a negative sign exactly when the preceding item was not a number. */
  lemma MinusBeforeDigit(s: string, prevNum: bool)
    requires |s| > 1 && s[0] == '-' && IsDigit(s[1])
    ensures LookaheadIsNumber(s, prevNum) <==> !prevNum
    ensures LookaheadIsExpressionOperator(s)
  {
  }

  /** Outside expressions, the only valid characters are the postfix commands. */
  lemma ValidNonExpressionIsCommand(s: string)
    requires |s| > 0 && !LookaheadIsExpression(s)
    ensures IsValidInput(s[0]) <==> s[0] == '=' || s[0] == 'd'
  {
  }

  /** The six infix operators, with the legacy precedence ranks (numbers rank 1, never compared). */
  datatype Op = Add | Sub | Mul | Div | Mod | Pow {

    function Symbol(): char {
      match this
      case Add => '+'
      case Sub => '-'
      case Mul => '*'
      case Div => '/'
      case Mod => '%'
      case Pow => '^'
    }

    function Rank(): nat {
      match this
      case Add => 2
      case Sub => 2
      case Mul => 3
      case Div => 4
      case Mod => 5
      case Pow => 6
    }
  }

  /** The operator a character denotes, if any. */
  function OpOf(c: char): (r: Option<Op>)
    ensures r.Some? <==> IsExpressionOperator(c)
    ensures r.Some? ==> r.value.Symbol() == c
  {
    match c
    case '+' => Some(Add)
    case '-' => Some(Sub)
    case '*' => Some(Mul)
    case '/' => Some(Div)
    case '%' => Some(Mod)
    case '^' => Some(Pow)
    case _ => None
  }

  lemma OpOfSymbol(op: Op)
    ensures OpOf(op.Symbol()) == Some(op)
    ensures IsExpressionOperator(op.Symbol())
  {
  }

  /**
   * `a` has precedence over `b` when its rank is at least `b`'s. The ranks
   * order the operators `+` = `-` < `*` < `/` < `%` < `^`.
   */
  function HasPrecedence(a: Op, b: Op): (r: bool)
    ensures a == b ==> r
    ensures a == Pow ==> r
    ensures a == Add || a == Sub ==> (r <==> b == Add || b == Sub)
    ensures b == Add || b == Sub ==> r
    ensures a == Mul ==> (r <==> b == Add || b == Sub || b == Mul)
    ensures a == Div ==> (r <==> b != Mod && b != Pow)
    ensures a == Mod ==> (r <==> b != Pow)
  {
    a.Rank() >= b.Rank()
  }

  /** Operators of equal rank: exactly `+` and `-`; every other pair is strictly ordered. */
  lemma RanksDistinguish(a: Op, b: Op)
    ensures a.Rank() == b.Rank() <==> a == b || ({a, b} == {Add, Sub})
  {
  }

  // ---------------------------------------------------------------------------
  // Numeric literals

  predicate AllDigits(d: string) {
    forall i :: 0 <= i < |d| ==> IsDigit(d[i])
  }

  /** The literal with an optional leading `-` removed. */
  function Unsigned(t: string): (d: string)
    ensures |d| <= |t|
  {
    if |t| > 0 && t[0] == '-' then t[1..] else t
  }

  /** `^-?[0-9]+$` */
  predicate IsSignedDecimal(t: string) {
    |Unsigned(t)| >= 1 && AllDigits(Unsigned(t))
  }

  /** `^-?0[0-9]+$`: a literal that looks octal. */
  predicate IsPotentialOctal(t: string) {
    var d := Unsigned(t);
    |d| >= 2 && d[0] == '0' && AllDigits(d)
  }

  /** `^-?0[0-7]+$`: a literal that really is octal. */
  predicate IsValidOctal(t: string) {
    var d := Unsigned(t);
    |d| >= 2 && d[0] == '0' && forall i :: 0 <= i < |d| ==> IsOctalDigit(d[i])
  }

  function DigitValue(c: char): (v: nat)
    requires IsDigit(c)
    ensures v <= 9
  {
    (c as int) - ('0' as int)
  }

  /** The value of the digit string `d` read in `base`, most significant digit first. */
  function ValueIn(base: nat, d: string): nat
    requires AllDigits(d)
  {
    if |d| == 0 then 0
    else ValueIn(base, d[..|d| - 1]) * base + DigitValue(d[|d| - 1])
  }

  /** The value of a signed literal in `base`, as Python's `int(t, base)` reads it. */
  function SignedValue(t: string, base: nat): int
    requires IsSignedDecimal(t)
  {
    var magnitude: int := ValueIn(base, Unsigned(t));
    if |t| > 0 && t[0] == '-' then -magnitude else magnitude
  }

  function Pow10(n: nat): (r: nat)
    ensures r >= 1
  {
    if n == 0 then 1 else 10 * Pow10(n - 1)
  }

  /** A decimal digit string without a leading zero is at least 10^(length - 1). */
  lemma {:induction false} DecimalLowerBound(d: string)
    requires |d| >= 1 && AllDigits(d) && d[0] != '0'
    ensures ValueIn(10, d) >= Pow10(|d| - 1)
  {
    if |d| > 1 {
      var p := d[..|d| - 1];
      assert p[0] == d[0];
      DecimalLowerBound(p);
    }
  }

  /** Number of leading digits of `s`. */
  function LeadingDigits(s: string): (n: nat)
    ensures n <= |s|
    ensures forall i :: 0 <= i < n ==> IsDigit(s[i])
    ensures n < |s| ==> !IsDigit(s[n])
  {
    if |s| == 0 || !IsDigit(s[0]) then 0 else 1 + LeadingDigits(s[1..])
  }

  /** Length of the match of `^-?[0-9]+` at the start of `s`, or `None` when it does not match. */
  function SignedDigitRun(s: string): (r: Option<nat>)
    ensures r.Some? <==> (|s| > 0 && IsDigit(s[0])) || (|s| > 1 && s[0] == '-' && IsDigit(s[1]))
    ensures r.Some? ==> 1 <= r.value <= |s| && IsSignedDecimal(s[..r.value])
    ensures r.Some? && r.value < |s| ==> !IsDigit(s[r.value])
  {
    if |s| > 0 && IsDigit(s[0]) then
      Some(LeadingDigits(s))
    else if |s| > 1 && s[0] == '-' && IsDigit(s[1]) then
      Some(LeadingDigits(s[1..]) + 1)
    else None
  }

  /** What a number start yields: a random request, a literal (maybe with no value), or no match at all. */
  datatype Lexeme = RandomRequest | Literal(value: Option<int>, length: nat) | NoMatch

  /**
   * Reads a signed digit string. Valid octal is read in base 8; an invalid
   * octal of exactly two characters falls back to base 10; any other invalid
   * octal has no value; everything else is base 10.
   */
  function ParseLiteral(t: string): (r: Lexeme)
    requires IsSignedDecimal(t)
    ensures r.Literal? && r.length == |t|
    ensures r.value.None? <==> IsPotentialOctal(t) && !IsValidOctal(t) && |t| != 2
    ensures IsValidOctal(t) ==> r.value == Some(SignedValue(t, 8))
    ensures !IsValidOctal(t) && (!IsPotentialOctal(t) || |t| == 2) ==> r.value == Some(SignedValue(t, 10))
    ensures r.value.Some? && t[0] != '-' ==> r.value.value >= 0
    ensures r.value.Some? && t[0] == '-' ==> r.value.value <= 0
  {
    if IsPotentialOctal(t) then
      if IsValidOctal(t) then Literal(Some(SignedValue(t, 8)), |t|)
      else if |t| == 2 then Literal(Some(SignedValue(t, 10)), |t|)
      else Literal(None, |t|)
    else Literal(Some(SignedValue(t, 10)), |t|)
  }

  /** The number starting at `s[0]` (`get_next_number`). */
  function NextNumber(s: string): (r: Lexeme)
    requires |s| > 0
    ensures r.RandomRequest? <==> s[0] == RandomMarker
    ensures r.NoMatch? <==> s[0] != RandomMarker && SignedDigitRun(s).None?
    ensures r.Literal? ==> 1 <= r.length <= |s|
    ensures r.Literal? ==> SignedDigitRun(s) == Some(r.length) && r == ParseLiteral(s[..r.length])
    ensures r.Literal? && r.length < |s| ==> !IsDigit(s[r.length])
  {
    var run := SignedDigitRun(s);
    if s[0] == RandomMarker then RandomRequest
    else if run.None? then NoMatch
    else ParseLiteral(s[..run.value])
  }

  /** `017` is octal: 15. */
  lemma OctalLiteral()
    ensures ParseLiteral("017") == Literal(Some(15), 3)
  {
    assert Unsigned("017") == "017";
    assert IsValidOctal("017");
    assert "017"[..2] == "01";
    assert "01"[..1] == "0";
    assert ValueIn(8, "0") == 0;
    assert ValueIn(8, "01") == 1;
    assert ValueIn(8, "017") == 15;
  }

  /** `09` is an invalid octal of two characters, read as decimal 9. */
  lemma TwoCharacterFallback()
    ensures ParseLiteral("09") == Literal(Some(9), 2)
  {
    assert Unsigned("09") == "09";
    assert !IsOctalDigit("09"[1]);
    assert "09"[..1] == "0";
    assert ValueIn(10, "0") == 0;
    assert ValueIn(10, "09") == 9;
  }

  /** `018` is an invalid octal longer than two characters: no value, three characters consumed. */
  lemma InvalidOctalHasNoValue()
    ensures ParseLiteral("018") == Literal(None, 3)
  {
    assert Unsigned("018") == "018";
    assert !IsOctalDigit("018"[2]);
  }

  /** The two-character fallback counts the sign: `-09` has no value. */
  lemma SignCountsTowardsFallback()
    ensures ParseLiteral("-09") == Literal(None, 3)
  {
    assert Unsigned("-09") == "09";
    assert !IsOctalDigit("09"[1]);
  }
}

=== FILE: machine.dfy ===
/**
 * The calculator's session state and the operations on it: the saturating
 * value stack of capacity 23, the deferred-operator buffer with its
 * reverse-order drain, and the postfix commands `=` and `d`.
 */
module Machine {
  import opened Wrappers
  import opened Int32
  import opened Lexer

  /** Pushing is refused once the stack holds this many entries. */
  const Capacity: nat := 23

  /** One line of output. `Text` in module Render gives its exact characters. */
  datatype Line =
    | Value(v: int)
    | StackUnderflow
    | StackOverflow
    | StackEmpty
    | DivideByZero
    | NegativePower
    | Unrecognised(c: char)

  /** `Fatal` stands for the legacy program exiting with status 1. */
  datatype Outcome = Continue | Fatal

  /** The process-wide state: value stack (top last), operator buffer (newest last), comment flag, random-request counter. */
  datatype Session = Session(stack: seq<int>, ops: seq<Op>, inComment: bool, randCount: nat)

  const Initial: Session := Session([], [], false, 0)

  /** A state transition: the new session, the lines printed, and whether the process goes on. */
  datatype Step = Step(session: Session, out: seq<Line>, outcome: Outcome)

  /** A transition that touches only the value stack. */
  datatype Effect = Effect(stack: seq<int>, out: seq<Line>, outcome: Outcome)

  /**
   * The results of `/`, `%` and `^`, which the legacy program computes in
   * floating point; the model takes them as a parameter.
   */
  type Kernel = (Op, int, int) -> int

  predicate StackOk(stack: seq<int>) {
    |stack| <= Capacity && forall i :: 0 <= i < |stack| ==> InRange(stack[i])
  }

  /** Buffered operators never decrease in rank from oldest to newest. */
  predicate RankSorted(ops: seq<Op>) {
    forall i, j :: 0 <= i < j < |ops| ==> ops[i].Rank() <= ops[j].Rank()
  }

  /** The state between two whitespace-separated tokens. */
  predicate Idle(s: Session) {
    StackOk(s.stack) && s.ops == []
  }

  /** `rest` runs after `first`, which did not end the process. */
  function Join(first: Step, rest: Step): (r: Step)
    ensures r.session == rest.session && r.outcome == rest.outcome
    ensures |r.out| == |first.out| + |rest.out|
    ensures r.out[..|first.out|] == first.out && r.out[|first.out|..] == rest.out
  {
    Step(rest.session, first.out + rest.out, rest.outcome)
  }

  // ---------------------------------------------------------------------------
  // Value stack

  /**
   * Pushes a value. The capacity check comes first, so even a literal with no
   * value reports an overflow on a full stack.
   */
  function Push(stack: seq<int>, v: Option<int>): (r: Effect)
    ensures r.outcome == Continue
    ensures |stack| >= Capacity ==> r.stack == stack && r.out == [StackOverflow]
    ensures |stack| < Capacity && v.None? ==> r.stack == stack && r.out == []
    ensures |stack| < Capacity && v.Some? ==> r.stack == stack + [Saturate(v.value)] && r.out == []
    ensures StackOk(stack) ==> StackOk(r.stack)
  {
    if |stack| > 22 then Effect(stack, [StackOverflow], Continue)
    else if v.None? then Effect(stack, [], Continue)
    else Effect(stack + [Saturate(v.value)], [], Continue)
  }

  /** The exact result of `+ - *`; the other three come from the kernel. */
  function Arith(op: Op, lhs: int, rhs: int, k: Kernel): (r: int)
    ensures op == Add ==> r == lhs + rhs
    ensures op == Sub ==> r == lhs - rhs
    ensures op == Mul ==> r == lhs * rhs
    ensures op == Div || op == Mod || op == Pow ==> r == k(op, lhs, rhs)
  {
    match op
    case Add => lhs + rhs
    case Sub => lhs - rhs
    case Mul => lhs * rhs
    case _ => k(op, lhs, rhs)
  }

  /** None of the four guards of a binary operator fires. */
  predicate BinaryApplies(stack: seq<int>, op: Op) {
    && |stack| >= 2
    && !((op == Div || op == Mod) && stack[|stack| - 1] == 0)
    && !(op == Pow && stack[|stack| - 1] < 0)
    && !(op == Mod && stack[|stack| - 2] == 0)
  }

  /**
   * Applies a binary operator to the two topmost entries: the top is the right
   * operand. The guards run in a fixed order and each diagnostic leaves the
   * stack as it was.
   */
  function ApplyBinary(stack: seq<int>, op: Op, k: Kernel): (r: Effect)
    ensures |stack| < 2 ==> r == Effect(stack, [StackUnderflow], Continue)
    ensures |stack| >= 2 && (op == Div || op == Mod) && stack[|stack| - 1] == 0 ==>
              r == Effect(stack, [DivideByZero], Continue)
    ensures |stack| >= 2 && op == Pow && stack[|stack| - 1] < 0 ==>
              r == Effect(stack, [NegativePower], Continue)
    ensures r.outcome == Fatal <==>
              |stack| >= 2 && op == Mod && stack[|stack| - 1] != 0 && stack[|stack| - 2] == 0
    ensures r.outcome == Fatal ==> r.stack == stack && r.out == []
    ensures BinaryApplies(stack, op) && |stack| - 2 < Capacity ==>
              r == Effect(stack[..|stack| - 2] + [Saturate(Arith(op, stack[|stack| - 2], stack[|stack| - 1], k))], [], Continue)
    ensures StackOk(stack) ==> StackOk(r.stack) && |stack| - 1 <= |r.stack| <= |stack|
  {
    if |stack| < 2 then Effect(stack, [StackUnderflow], Continue)
    else
      var rhs := stack[|stack| - 1];
      var lhs := stack[|stack| - 2];
      if (op == Div || op == Mod) && rhs == 0 then Effect(stack, [DivideByZero], Continue)
      else if op == Pow && rhs < 0 then Effect(stack, [NegativePower], Continue)
      else if op == Mod && lhs == 0 then Effect(stack, [], Fatal)
      else Push(stack[..|stack| - 2], Some(Arith(op, lhs, rhs, k)))
  }

  // ---------------------------------------------------------------------------
  // Operator buffer

  function Reverse<T>(xs: seq<T>): (r: seq<T>)
    ensures |r| == |xs|
    ensures forall i :: 0 <= i < |xs| ==> r[i] == xs[|xs| - 1 - i]
  {
    if |xs| == 0 then [] else [xs[|xs| - 1]] + Reverse(xs[..|xs| - 1])
  }

  /** Applies `ops` in the order given, stopping at the first fatal one. */
  function ApplyAll(stack: seq<int>, ops: seq<Op>, k: Kernel): (r: Effect)
    ensures StackOk(stack) ==> StackOk(r.stack) && |stack| - |ops| <= |r.stack| <= |stack|
    decreases |ops|
  {
    if |ops| == 0 then Effect(stack, [], Continue)
    else
      var e := ApplyBinary(stack, ops[0], k);
      if e.outcome == Fatal then e
      else
        var rest := ApplyAll(e.stack, ops[1..], k);
        Effect(rest.stack, e.out + rest.out, rest.outcome)
  }

  /**
   * Empties the buffer, then applies its operators newest first, without
   * re-sorting them by precedence (the legacy quirk).
   */
  function Drain(s: Session, k: Kernel): (r: Step)
    ensures r.session.ops == []
    ensures r.session.inComment == s.inComment && r.session.randCount == s.randCount
    ensures s.ops == [] ==> r == Step(s, [], Continue)
    ensures StackOk(s.stack) ==> StackOk(r.session.stack)
  {
    var e := ApplyAll(s.stack, Reverse(s.ops), k);
    Step(s.(stack := e.stack, ops := []), e.out, e.outcome)
  }

  /**
   * Draining applies the most recently queued operator first, then drains the
   * older ones, as if that operator had never been queued.
   */
  lemma DrainNewestFirst(s: Session, k: Kernel)
    requires |s.ops| > 0
    ensures var newest := s.ops[|s.ops| - 1];
            var e := ApplyBinary(s.stack, newest, k);
            var older := s.(stack := e.stack, ops := s.ops[..|s.ops| - 1]);
            Drain(s, k) ==
              if e.outcome == Fatal then Step(s.(stack := e.stack, ops := []), e.out, Fatal)
              else Join(Step(older, e.out, Continue), Drain(older, k))
  {
    var newest := s.ops[|s.ops| - 1];
    var rev := Reverse(s.ops);
    assert rev == [newest] + Reverse(s.ops[..|s.ops| - 1]);
    assert rev[1..] == Reverse(s.ops[..|s.ops| - 1]);
  }

  // ---------------------------------------------------------------------------
  // Postfix commands

  /** Every stack entry, bottom to top, one line each. */
  function Values(stack: seq<int>): (r: seq<Line>)
    ensures |r| == |stack|
    ensures forall i :: 0 <= i < |stack| ==> r[i] == Value(stack[i])
  {
    if |stack| == 0 then [] else Values(stack[..|stack| - 1]) + [Value(stack[|stack| - 1])]
  }

  /** What `d` prints for a stack: the minimum value when it is empty. */
  function Listing(stack: seq<int>): (r: seq<Line>)
    ensures |stack| == 0 ==> r == [Value(MinValue)]
    ensures |stack| > 0 ==> |r| == |stack| && forall i :: 0 <= i < |stack| ==> r[i] == Value(stack[i])
  {
    (if |stack| == 0 then [Value(MinValue)] else []) + Values(stack)
  }

  /** `d`: drains the buffer unconditionally, then lists the stack bottom to top. */
  function Dump(s: Session, k: Kernel): (r: Step)
    ensures r.session.ops == []
    ensures r.outcome == Drain(s, k).outcome
    ensures r.outcome == Continue ==>
              r.session == Drain(s, k).session && r.out == Drain(s, k).out + Listing(r.session.stack)
    ensures s.ops == [] ==> r == Step(s, Listing(s.stack), Continue)
    ensures StackOk(s.stack) ==> StackOk(r.session.stack)
  {
    var d := Drain(s, k);
    if d.outcome == Fatal then d
    else Step(d.session, d.out + Listing(d.session.stack), Continue)
  }

  /** `=`: prints the top entry, or `Stack empty.`, and changes nothing. */
  function PrintTop(s: Session): (r: Step)
    ensures r.session == s && r.outcome == Continue && |r.out| == 1
    ensures r.out[0] == StackEmpty <==> |s.stack| == 0
    ensures |s.stack| > 0 ==> r.out[0] == Value(s.stack[|s.stack| - 1])
  {
    if |s.stack| == 0 then Step(s, [StackEmpty], Continue)
    else Step(s, [Value(s.stack[|s.stack| - 1])], Continue)
  }

  /** A postfix command: `d`, `=`, or a binary operator applied at once. */
  function EvaluatePostfix(s: Session, c: char, k: Kernel): (r: Step)
    requires c == 'd' || c == '=' || IsExpressionOperator(c)
    ensures r.session.inComment == s.inComment && r.session.randCount == s.randCount
    ensures c != 'd' ==> r.session.ops == s.ops
    ensures c == '=' ==> r == PrintTop(s)
    ensures c == 'd' ==> r == Dump(s, k)
    ensures IsExpressionOperator(c) ==> var e := ApplyBinary(s.stack, OpOf(c).value, k);
              r.session == s.(stack := e.stack) && r.out == e.out && r.outcome == e.outcome
    ensures c == '=' ==> r.session.stack == s.stack
    ensures StackOk(s.stack) ==> StackOk(r.session.stack)
  {
    if c == 'd' then Dump(s, k)
    else if c == '=' then PrintTop(s)
    else
      var e := ApplyBinary(s.stack, OpOf(c).value, k);
      Step(s.(stack := e.stack), e.out, e.outcome)
  }

  /**
   * Queues an infix operator. If it ranks below the newest queued operator,
   * the whole buffer is drained first.
   */
  function QueueOperator(s: Session, op: Op, k: Kernel): (r: Step)
    ensures var drains := |s.ops| > 0 && op.Rank() < s.ops[|s.ops| - 1].Rank();
            && (drains ==> r.out == Drain(s, k).out && r.outcome == Drain(s, k).outcome
                           && r.session.stack == Drain(s, k).session.stack)
            && (!drains ==> r.out == [] && r.outcome == Continue && r.session.stack == s.stack)
            && (r.outcome == Continue ==> r.session.ops == (if drains then [] else s.ops) + [op])
    ensures r.session.inComment == s.inComment && r.session.randCount == s.randCount
    ensures RankSorted(s.ops) ==> RankSorted(r.session.ops)
    ensures StackOk(s.stack) ==> StackOk(r.session.stack)
  {
    var pre := if |s.ops| > 0 && !HasPrecedence(op, s.ops[|s.ops| - 1]) then Drain(s, k) else Step(s, [], Continue);
    if pre.outcome == Fatal then pre
    else Step(pre.session.(ops := pre.session.ops + [op]), pre.out, Continue)
  }
}

=== FILE: render.dfy ===
/**
 * The exact characters of every output line, and the fact that a printed
 * number, typed back in, is read as the same number.
 */
module Render {
  import opened Wrappers
  import opened Lexer
  import opened Machine

  function DigitChar(d: nat): (c: char)
    requires d <= 9
    ensures IsDigit(c) && DigitValue(c) == d
  {
    ('0' as int + d) as char
  }

  /** Decimal digits of `n`, without leading zeros. */
  function NatToString(n: nat): (t: string)
    ensures |t| >= 1 && AllDigits(t)
    decreases n
  {
    if n < 10 then [DigitChar(n)] else NatToString(n / 10) + [DigitChar(n % 10)]
  }

  /** How `print` writes an integer. */
  function IntToString(v: int): (t: string)
    ensures |t| >= 1
    ensures v < 0 <==> t[0] == '-'
    ensures v >= 0 ==> IsDigit(t[0]) && AllDigits(t)
  {
    if v < 0 then "-" + NatToString(-v) else NatToString(v)
  }

  /** The exact characters of an output line: a value, or a diagnostic ending in a full stop. */
  function Text(line: Line): (t: string)
    ensures |t| >= 1
    ensures !line.Value? ==> t[|t| - 1] == '.'
    ensures line.Unrecognised? ==> |t| == 37 && t[34] == line.c
  {
    match line
    case Value(v) => IntToString(v)
    case StackUnderflow => "Stack underflow."
    case StackOverflow => "Stack overflow."
    case StackEmpty => "Stack empty."
    case DivideByZero => "Divide by 0."
    case NegativePower => "Negative power."
    case Unrecognised(c) => "Unrecognised operator or operand \"" + [c] + "\"."
  }

  /** Octal digits of `n`, without leading zeros. */
  function OctalString(n: nat): (t: string)
    ensures |t| >= 1 && AllDigits(t)
    ensures forall i :: 0 <= i < |t| ==> IsOctalDigit(t[i])
    decreases n
  {
    if n < 8 then [DigitChar(n)] else OctalString(n / 8) + [DigitChar(n % 8)]
  }

  /** A literal written with a leading `0` (after any sign) and then the octal digits of `v`. */
  function OctalLiteralText(v: int): (t: string)
    ensures |t| >= 2
  {
    var m: nat := if v < 0 then -v else v;
    (if v < 0 then "-0" else "0") + OctalString(m)
  }

  /** A leading zero does not change the value of a digit string. */
  lemma {:induction false} LeadingZeroValue(base: nat, d: string)
    requires AllDigits(d)
    ensures AllDigits("0" + d) && ValueIn(base, "0" + d) == ValueIn(base, d)
    decreases |d|
  {
    if |d| == 0 {
      assert "0" + d == "0";
      assert "0"[..0] == "";
    } else {
      var z := "0" + d;
      assert z[..|z| - 1] == "0" + d[..|d| - 1];
      assert z[|z| - 1] == d[|d| - 1];
      LeadingZeroValue(base, d[..|d| - 1]);
    }
  }

  lemma {:induction false} OctalStringValue(n: nat)
    ensures ValueIn(8, OctalString(n)) == n
    decreases n
  {
    if n >= 8 {
      var t := OctalString(n);
      OctalStringValue(n / 8);
      assert t[..|t| - 1] == OctalString(n / 8);
    }
  }

  /** `0` followed by octal digits is a valid octal digit string with the same value. */
  lemma ZeroPrefixedOctal(o: string)
    requires |o| >= 1 && AllDigits(o) && forall i :: 0 <= i < |o| ==> IsOctalDigit(o[i])
    ensures var d := "0" + o;
            && |d| >= 2 && d[0] == '0'
            && (forall i :: 0 <= i < |d| ==> IsOctalDigit(d[i]))
            && AllDigits(d) && ValueIn(8, d) == ValueIn(8, o)
  {
    var d := "0" + o;
    assert forall i :: 1 <= i < |d| ==> d[i] == o[i - 1];
    LeadingZeroValue(8, o);
  }

  lemma OctalTextValue(v: int)
    ensures IsSignedDecimal(OctalLiteralText(v)) && IsValidOctal(OctalLiteralText(v))
    ensures SignedValue(OctalLiteralText(v), 8) == v
  {
    var m: nat := if v < 0 then -v else v;
    var o := OctalString(m);
    var d := "0" + o;
    var t := OctalLiteralText(v);
    ZeroPrefixedOctal(o);
    OctalStringValue(m);
    if v < 0 {
      assert t == "-" + d;
      assert t[1..] == d;
    } else {
      assert t == d;
    }
    assert Unsigned(t) == d;
  }

  /** Every value written in octal with a leading `0` reads back as itself, in base 8. */
  lemma ParseOctalText(v: int)
    ensures IsValidOctal(OctalLiteralText(v))
    ensures ParseLiteral(OctalLiteralText(v)) == Literal(Some(v), |OctalLiteralText(v)|)
  {
    OctalTextValue(v);
  }

  lemma {:induction false} NatToStringValue(n: nat)
    ensures ValueIn(10, NatToString(n)) == n
    decreases n
  {
    if n >= 10 {
      var t := NatToString(n);
      NatToStringValue(n / 10);
      assert t[..|t| - 1] == NatToString(n / 10);
    }
  }

  lemma {:induction false} NatToStringNoLeadingZero(n: nat)
    requires n >= 1
    ensures NatToString(n)[0] != '0'
    decreases n
  {
    if n >= 10 {
      NatToStringNoLeadingZero(n / 10);
    }
  }

  /** A printed number is a literal that reads back as that number. */
  lemma ParsePrinted(v: int)
    ensures IsSignedDecimal(IntToString(v))
    ensures ParseLiteral(IntToString(v)) == Literal(Some(v), |IntToString(v)|)
  {
    var t := IntToString(v);
    var m: nat := if v < 0 then -v else v;
    assert Unsigned(t) == NatToString(m);
    NatToStringValue(m);
    if m >= 1 {
      NatToStringNoLeadingZero(m);
    }
    assert !IsPotentialOctal(t);
  }

  /** The text of a value line starts with a digit or a minus sign; no diagnostic does. */
  lemma ValueTextsAreNumbers(line: Line)
    ensures |Text(line)| > 0
    ensures line.Value? <==> IsDigit(Text(line)[0]) || Text(line)[0] == '-'
  {
    if line.Value? {
      var v := line.v;
      if v >= 0 {
        assert Text(line)[0] == NatToString(v)[0];
      }
    }
  }

  /** Distinct lines print distinct text. */
  lemma TextInjective(a: Line, b: Line)
    requires Text(a) == Text(b)
    ensures a == b
  {
    ValueTextsAreNumbers(a);
    ValueTextsAreNumbers(b);
    if a.Value? {
      ParsePrinted(a.v);
      ParsePrinted(b.v);
    } else if a.Unrecognised? {
      assert Text(a)[34] == a.c;
      assert Text(b)[34] == b.c;
    }
  }
}

=== FILE: rng.dfy ===
/**
 * The legacy pseudorandom generator: a generator sequence built once from
 * seed 1, of which only a fixed 23-entry window is kept, read cyclically
 * over indices 1..22 with a 32-bit mask and a one-bit shift.
 */
module Rng {
  import opened Int32

  const Seed: int := 1
  const Multiplier: int := 16807
  /** Entries 0..365 are generated; the first 343 are then discarded. */
  const GeneratedLength: nat := 366
  const Discarded: nat := 343
  const WindowSize: nat := 23
  /** Window indices 1..22 are consulted, so the values repeat every 22 requests. */
  const Period: nat := 22

  /** One step of the multiplicative congruential recurrence, corrected to be non-negative. */
  function Lehmer(x: int): (r: int)
    ensures 0 <= r < MaxValue
  {
    var v := Multiplier * x % MaxValue;
    if v < 0 then v + MaxValue else v
  }

  /** Entry `n` of the generator sequence; entries from 34 on are summed without any reduction. */
  function Gen(n: nat): (r: int)
    ensures r >= 0
  {
    if n == 0 then Seed
    else if n <= 30 then Lehmer(Gen(n - 1))
    else if n <= 33 then Gen(n - 31)
    else Gen(n - 31) + Gen(n - 3)
  }

  /**
   * The entry that follows `list` (which holds entries 0 .. |list| - 1):
   * entries 1..30 step the recurrence, 31..33 copy entries 0..2, and later
   * ones add the entries 31 and 3 places back.
   */
  function NextEntry(list: seq<int>): int
    requires |list| >= 1
  {
    var n := |list|;
    if n <= 30 then Lehmer(list[n - 1])
    else if n <= 33 then list[n - 31]
    else list[n - 31] + list[n - 3]
  }

  /** The first `n` entries of the generator list, appended one at a time from the seed. */
  function Generated(n: nat): (list: seq<int>)
    requires n >= 1
    ensures |list| == n
    ensures list[0] == Seed
  {
    if n == 1 then [Seed]
    else
      var prev := Generated(n - 1);
      prev + [NextEntry(prev)]
  }

  /** The list built entry by entry agrees with the recursive reference definition. */
  lemma {:induction false} GeneratedIsGen(n: nat)
    requires n >= 1
    ensures forall i :: 0 <= i < n ==> Generated(n)[i] == Gen(i)
  {
    if n > 1 {
      GeneratedIsGen(n - 1);
      var prev := Generated(n - 1);
      assert forall i {:trigger prev[i]} :: 0 <= i < n - 1 ==> prev[i] == Gen(i);
      assert NextEntry(prev) == Gen(n - 1);
      assert forall i :: 0 <= i < n - 1 ==> Generated(n)[i] == prev[i];
    }
  }

  /** The entries that survive the discard: the last 23 of the 366 generated. */
  function Window(): (w: seq<int>)
    ensures |w| == WindowSize
  {
    Generated(GeneratedLength)[Discarded..]
  }

  /** Window entry i is generator entry 343 + i. */
  lemma WindowIsGen()
    ensures forall i :: 0 <= i < WindowSize ==> Window()[i] == Gen(Discarded + i)
  {
    GeneratedIsGen(GeneratedLength);
  }

  /** Builds the generator list entry by entry and keeps its last 23 entries. */
  method PopulateWindow() returns (w: seq<int>)
    ensures w == Window()
    ensures |w| == WindowSize
    ensures forall i :: 0 <= i < WindowSize ==> w[i] == Gen(Discarded + i)
  {
    var list := [Seed];
    while |list| < GeneratedLength
      invariant 1 <= |list| <= GeneratedLength
      invariant list == Generated(|list|)
    {
      list := list + [NextEntry(list)];
    }
    w := list[Discarded..];
    WindowIsGen();
  }

  /** The window index read by the `count`-th request (counting from 1). */
  function RandIndex(count: nat): (r: nat)
    requires count >= 1
    ensures 1 <= r <= Period
    ensures r < WindowSize
    ensures (count - r) % Period == 0
  {
    (count - 1) % Period + 1
  }

  /** The value returned by the `count`-th random request. */
  function RandomValue(count: nat): (r: int)
    requires count >= 1
    ensures 0 <= r <= MaxValue
  {
    Mask32(Window()[RandIndex(count)]) / 2
  }

  /** The first 22 requests read window indices 1..22 in order. */
  lemma RandIndexFirstCycle(count: nat)
    requires 1 <= count <= Period
    ensures RandIndex(count) == count
  {
  }

  /** Requests that lie a whole number of periods apart return the same value. */
  lemma {:induction false} RandomPeriodic(count: nat, cycles: nat)
    requires count >= 1
    ensures RandIndex(count + cycles * Period) == RandIndex(count)
    ensures RandomValue(count + cycles * Period) == RandomValue(count)
  {
    if cycles > 0 {
      RandomPeriodic(count, cycles - 1);
      var earlier := count + (cycles - 1) * Period;
      assert count + cycles * Period == earlier + Period;
      assert RandIndex(earlier + Period) == RandIndex(earlier);
    }
  }
}

=== FILE: scenarios.dfy ===
/**
 * Worked behaviour of the scanner and the buffer: a printed number read
 * back, an over-long literal, buffered subtractions, and the drains that
 * give the legacy result of `2+2^2*2`.
 */
module Scenarios {
  import opened Wrappers
  import opened Int32
  import opened Lexer
  import opened Machine
  import opened Evaluator
  import opened Render

  lemma {:induction false} NatToStringShort(n: nat, b: nat)
    requires b >= 1 && n < Pow10(b)
    ensures |NatToString(n)| <= b
    decreases n
  {
    if n >= 10 {
      assert b >= 2;
      NatToStringShort(n / 10, b - 1);
    }
  }

  /** A 32-bit value prints in at most 11 characters, well inside the 43-character window. */
  lemma PrintedValueIsShort(v: int)
    requires InRange(v)
    ensures |IntToString(v)| <= 11
  {
    var m: nat := if v < 0 then -v else v;
    assert Pow10(10) == 10000000000;
    NatToStringShort(m, 10);
  }

  lemma {:induction false} LeadingDigitsStopAtNonDigit(d: string, rest: string)
    requires AllDigits(d)
    requires |rest| > 0 ==> !IsDigit(rest[0])
    ensures LeadingDigits(d + rest) == |d|
  {
    if |d| > 0 {
      assert (d + rest)[1..] == d[1..] + rest;
      LeadingDigitsStopAtNonDigit(d[1..], rest);
    } else {
      assert d + rest == rest;
    }
  }

  /** A signed digit string followed by a non-digit is matched exactly up to that character. */
  lemma DigitRunStopsAtNonDigit(t: string, rest: string)
    requires IsSignedDecimal(t)
    requires |rest| > 0 ==> !IsDigit(rest[0])
    ensures SignedDigitRun(t + rest) == Some(|t|)
  {
    var u := Unsigned(t);
    LeadingDigitsStopAtNonDigit(u, rest);
    if t[0] == '-' {
      assert (t + rest)[1..] == u + rest;
    } else {
      assert t == u;
    }
  }

  /** The item handed a printed value followed by a non-digit is exactly that value's literal. */
  lemma PrintedValueLexes(v: int, rest: string)
    requires InRange(v)
    requires |rest| > 0 ==> !IsDigit(rest[0])
    ensures var input := IntToString(v) + rest;
            && LookaheadIsNumber(input, false)
            && NextNumber(Visible(input)) == Literal(Some(v), |IntToString(v)|)
  {
    var t := IntToString(v);
    var input := t + rest;
    ParsePrinted(v);
    PrintedValueIsShort(v);
    var e := Visible(input);
    var cut := e[|t|..];
    assert e == t + cut;
    assert |cut| > 0 ==> cut[0] == rest[0];
    DigitRunStopsAtNonDigit(t, cut);
    assert e[..|t|] == t;
    assert input[0] == t[0];
    assert |t| > 1 ==> input[1] == t[1];
  }

  /**
   * A printed 32-bit value, typed back in, is one literal: it is pushed
   * unchanged, and `=` then prints it again.
   */
  lemma PrintedValueReadsBack(s: Session, v: int, rest: string, k: Kernel)
    requires InRange(v) && |s.stack| < Capacity
    requires |rest| > 0 ==> !IsDigit(rest[0])
    ensures var c := EvaluateExpression(s, IntToString(v) + rest, false, k);
            && c == Consumed(Step(s.(stack := s.stack + [v]), [], Continue), |IntToString(v)|, true)
            && PrintTop(c.step.session).out == [Value(v)]
  {
    PrintedValueLexes(v, rest);
  }

  lemma {:induction false} Pow10BeyondInt32(n: nat)
    requires n >= 10
    ensures Pow10(n) > MaxValue
  {
    if n > 10 {
      Pow10BeyondInt32(n - 1);
    } else {
      assert Pow10(10) == 10000000000;
    }
  }

  /** A run of 43 decimal digits not starting with 0 reads as one literal far beyond 32 bits. */
  lemma LongDigitRunOverflows(e: string)
    requires |e| == Cutoff && AllDigits(e) && e[0] != '0'
    ensures NextNumber(e).Literal? && NextNumber(e).length == Cutoff
    ensures NextNumber(e).value.Some? && NextNumber(e).value.value > MaxValue
  {
    assert Unsigned(e) == e;
    DigitRunStopsAtNonDigit(e, "");
    assert e + "" == e;
    assert e[..Cutoff] == e;
    assert !IsPotentialOctal(e);
    DecimalLowerBound(e);
    Pow10BeyondInt32(Cutoff - 1);
  }

  /**
   * A literal longer than 43 digits is not dropped: its first 43 digits are
   * consumed as one number, which saturates, and the scan goes on from the
   * 44th character.
   */
  lemma LongLiteralIsSplit(s: Session, input: string, prevNum: bool, k: Kernel)
    requires |input| > Cutoff && AllDigits(input) && input[0] != '0'
    requires |s.stack| < Capacity
    ensures EvaluateExpression(s, input, prevNum, k)
              == Consumed(Step(s.(stack := s.stack + [MaxValue]), [], Continue), Cutoff, true)
  {
    var e := Visible(input);
    assert AllDigits(e);
    LongDigitRunOverflows(e);
  }

  /**
   * After a number, `-` is the subtraction operator; queued behind `+` or `-`
   * it drains nothing and is appended to the buffer.
   */
  lemma MinusAfterNumberQueues(s: Session, rest: string, k: Kernel)
    requires s.ops == [] || s.ops[|s.ops| - 1].Rank() <= Sub.Rank()
    ensures EvaluateExpression(s, ['-'] + rest, true, k)
              == Consumed(Step(s.(ops := s.ops + [Sub]), [], Continue), 1, false)
  {
    assert (['-'] + rest)[0] == '-';
  }

  /**
   * The buffer is drained newest first, so buffered subtractions group to
   * the right: with `- -` queued over x y z the result is x - (y - z), not
   * (x - y) - z; for `1-2-3` that is 2 rather than -4.
   */
  lemma DrainTwoMinuses(s: Session, x: int, y: int, z: int, k: Kernel)
    requires s.stack == [x, y, z] && s.ops == [Sub, Sub]
    requires InRange(y - z) && InRange(x - (y - z))
    ensures Drain(s, k) == Step(s.(stack := [x - (y - z)], ops := []), [], Continue)
  {
    var w := y - z;
    assert [x, y, z][..1] == [x];
    assert ApplyBinary([x, y, z], Sub, k) == Effect([x, w], [], Continue);
    var older := s.(stack := [x, w], ops := [Sub]);
    DrainNewestFirst(s, k);
    assert [x, w][..0] == [];
    assert ApplyBinary([x, w], Sub, k) == Effect([x - w], [], Continue);
    DrainNewestFirst(older, k);
  }

  /** Draining `+ ^` over 2 2 2 applies `^` first: 2 + (2 ^ 2). */
  lemma DrainPowerThenAdd(k: Kernel)
    requires k(Pow, 2, 2) == 4
    ensures Drain(Session([2, 2, 2], [Add, Pow], false, 0), k) == Step(Session([6], [], false, 0), [], Continue)
  {
    var s := Session([2, 2, 2], [Add, Pow], false, 0);
    assert [2, 2, 2][..1] == [2];
    assert ApplyBinary([2, 2, 2], Pow, k) == Effect([2, 4], [], Continue);
    var older := s.(stack := [2, 4], ops := [Add]);
    DrainNewestFirst(s, k);
    assert [2, 4][..0] == [];
    assert ApplyBinary([2, 4], Add, k) == Effect([6], [], Continue);
    DrainNewestFirst(older, k);
  }

  /**
   * The legacy precedence quirk on `2+2^2*2`, from the state after `2+2^2`
   * (stack 2 2 2, buffer `+ ^`): `*` ranks below the queued `^`, so the buffer
   * drains newest first, leaving 6; after the last `2`, the final drain of `*`
   * over 6 2 gives 12 where ordinary precedence gives 10.
   */
  lemma LegacyPrecedence(k: Kernel)
    requires k(Pow, 2, 2) == 4
    ensures QueueOperator(Session([2, 2, 2], [Add, Pow], false, 0), Mul, k)
              == Step(Session([6], [Mul], false, 0), [], Continue)
    ensures Drain(Session([6, 2], [Mul], false, 0), k) == Step(Session([12], [], false, 0), [], Continue)
  {
    DrainPowerThenAdd(k);
    var t := Session([6, 2], [Mul], false, 0);
    assert [6, 2][..0] == [];
    assert ApplyBinary([6, 2], Mul, k) == Effect([12], [], Continue);
    DrainNewestFirst(t, k);
  }

  /**
   * A token `=` prints the top of the stack (or `Stack empty.`) and changes
   * nothing; operators still buffered from before are drained afterwards.
   */
  lemma EqualsTokenPrintsTop(s: Session, prevNum: bool, k: Kernel)
    ensures Scan(s, "=", prevNum, k) == if s.ops == [] then PrintTop(s) else Join(PrintTop(s), Drain(s, k))
  {
    assert !LookaheadIsExpression("=");
    assert "="[1..] == "";
    assert PrintTop(s).out + [] == PrintTop(s).out;
  }

  /** A token `d` is exactly the `d` command: the buffer is empty afterwards, so nothing more happens. */
  lemma DumpTokenIsDump(s: Session, prevNum: bool, k: Kernel)
    ensures Scan(s, "d", prevNum, k) == Dump(s, k)
  {
    assert !LookaheadIsExpression("d");
    assert "d"[1..] == "";
    assert Dump(s, k).out + [] == Dump(s, k).out;
  }

  /** A printed value is plain ASCII, so `ProcessInput` hands it to the scanner. */
  lemma PrintedIsAscii(v: int)
    ensures IsAscii(IntToString(v)) && IntToString(v) != "#"
  {
    var t := IntToString(v);
    if v < 0 {
      var d := NatToString(-v);
      assert t == "-" + d;
      assert forall i :: 1 <= i < |t| ==> t[i] == d[i - 1];
    }
  }

  /** A printed 32-bit value typed as a token on its own pushes itself and prints nothing. */
  lemma PrintedValueToken(s: Session, v: int, k: Kernel)
    requires InRange(v) && |s.stack| < Capacity && s.ops == []
    ensures Scan(s, IntToString(v), false, k) == Step(s.(stack := s.stack + [v]), [], Continue)
  {
    var t := IntToString(v);
    PrintedValueReadsBack(s, v, "", k);
    assert t + "" == t;
    assert LookaheadIsNumber(t, false);
    assert LookaheadIsExpression(t);
    assert t[|t|..] == "";
    var s' := s.(stack := s.stack + [v]);
    ScanEndDrains(s', true, k);
  }

  /** Typing a 32-bit value and then `=` into an idle session prints the value back. */
  lemma TokenRoundTrip(s: Session, v: int, k: Kernel)
    requires Idle(s) && !s.inComment && InRange(v) && |s.stack| < Capacity
    ensures Run(s, [IntToString(v), "="], k).out == [Value(v)]
  {
    var t := IntToString(v);
    var s' := s.(stack := s.stack + [v]);
    PrintedIsAscii(v);
    PrintedValueToken(s, v, k);
    RunSingle(s, t, k);
    assert [t, "="] == [t] + ["="];
    RunAppend(s, [t], ["="], k);
    assert IsAscii("=");
    EqualsTokenPrintsTop(s', false, k);
    RunSingle(s', "=", k);
  }

  /**
   * Over a whole token, a literal longer than 43 digits is split: its first
   * 43 digits push the saturated maximum, and the scan resumes on the rest
   * of the token as the continuation of a number.
   */
  lemma LongLiteralScan(s: Session, input: string, k: Kernel)
    requires |input| > Cutoff && AllDigits(input) && input[0] != '0' && |s.stack| < Capacity
    ensures var s' := s.(stack := s.stack + [MaxValue]);
            Scan(s, input, false, k) == Join(Step(s', [], Continue), Scan(s', input[Cutoff..], true, k))
  {
    LongLiteralIsSplit(s, input, false, k);
  }
}

=== FILE: wrappers.dfy ===
/** The optional value used wherever the calculator has "no value" (a `None` in the legacy program). */
module Wrappers {

  datatype Option<+T> = None | Some(value: T)
}
